=== FILE: README.md ===
# Authenticating reverse proxy: a Dafny model

The proxy receives an HTTP request, asks for a Google-signed identity token
whose audience is the upstream base URL, and forwards the request to the
upstream. The forwarded request carries the token as `Authorization: Bearer …`
and the upstream's host as `Host`. The proxy then relays the upstream's
status, headers and body back to the caller. It drops four hop-by-hop headers
(`content-encoding`, `content-length`, `transfer-encoding` and `connection`)
in any letter case.

The repository has two implementations, and this project models both:

- **Flask** (`python/proxy.py`), module `PyProxy`. This part is pure functions.
  - `GetGoogleIdToken` and `ProxyRequest` take the token issuer and the
    `requests` transport as function parameters.
  - The forwarded header dict is the comprehension over the inbound pairs
    (`DictOf`), followed by the two overrides (`ForwardHeaders`).
  - The `Host` value is the two string splits (`HostHeader`).
  - The response filter is the list comprehension (`FilterResponseHeaders`).
- **net/http** (`golang/main.go`), modules `GoUrl` and `GoProxy`. This part is imperative.
  - The response writer is the class `GoProxy.ResponseWriter`. Its fields are
    the header map, the status, the header as it stood when the status line
    went out, and the body. The handler changes them in place.
  - `copyResponse` is the method `CopyResponse`: a loop over the upstream
    names, and an inner loop (`AddValues`) that adds each value with `Add`.
  - `handleProxyRequest` is `HandleProxyRequest`.
  - Three things are inputs: whether `http.NewRequestWithContext` fails, the
    token source's result, and the HTTP client.
  - Header names are canonicalised as `textproto.CanonicalMIMEHeaderKey` does
    (`Canonical`).
  - `URL.ResolveReference` is modelled for the request targets a server
    passes to a handler: paths that start with `/` and have no dot segments
    and no empty segment, since `ServeMux` redirects the others (`GoUrl`).
  - A status that forbids a body (1xx, 204, 304) makes the writer drop the
    body (`BodyAllowed`), so a relayed 101 upgrade reaches the caller without
    one.

Shared pieces:
- `Text`: Python's `str.split` with its inverse `Join`, and ASCII lower-casing.
- `Hop`: the exclusion list and the token-failure message.
- `Agreement`: lemmas that relate the two implementations.
  - For the same upstream pairs, when their names are already in canonical
    form, Python's filtered list and Go's copy into a fresh writer hold the
    same names with the same values, in the same order within each name. Go's
    header map has no order across names. Go's client canonicalises names and
    urllib3 keeps them as sent, so for other names the two differ in letter
    case.
  - For an upstream URL of the form `scheme://host[/path]` with no query,
    Python's `Host` string is the host Go parses. Other URLs can differ: for
    `https://svc.example?x=1` Python sends `svc.example?x=1`.
  - For origin-form requests, the destinations agree only when the upstream
    URL has no path.

## Model

| member | source | states |
|---|---|---|
| PyProxy.GetGoogleIdToken | python/proxy.py:19-38 | Any issuer failure becomes `None`. Otherwise the result is exactly the issuer's token for the given audience. |
| PyProxy.DictOf | python/proxy.py:60 | The dict has exactly the keys of the inbound pairs. A repeated key holds the value of its last pair. |
| PyProxy.ForwardHeaders | python/proxy.py:60-66 | The keys are the inbound keys plus `Authorization` and `Host`. `Authorization` is exactly `"Bearer " + token`, replacing any inbound value. `Host` is the given host. Every other inbound key keeps its last inbound value. |
| PyProxy.HostHeader | python/proxy.py:66 | Defined exactly when the upstream URL contains `//` (otherwise the expression raises). The result contains no `/`. It is the text right after the first `//`, up to the next `/` or the end. |
| PyProxy.UpToSlash | python/proxy.py:66 | Taking the first piece of a split on `//` and then on `/` gives the longest `/`-free prefix of the text. |
| PyProxy.HostShape | python/proxy.py:66 | Where the text chosen by the two splits lies in the URL, and that it holds no `/`. |
| PyProxy.FilterResponseHeaders | python/proxy.py:87-91 | Filtering never lengthens the list. |
| PyProxy.FilterSound | python/proxy.py:88-91 | Every relayed pair is an upstream pair whose name, lower-cased, is not in the exclusion list. |
| PyProxy.FilterCounts | python/proxy.py:87-91 | Each pair with an excluded name, in any letter case, occurs zero times after filtering. Every other pair occurs exactly as often as upstream. |
| PyProxy.FilterAppend | python/proxy.py:88-91 | Filtering distributes over concatenation, so kept pairs stay in upstream order. |
| PyProxy.FilterIdempotent | python/proxy.py:88-91 | Filtering twice equals filtering once. |
| PyProxy.ProxyRequest | python/proxy.py:43-93 | A failed or empty token gives a `text/plain` 500 with the token message, and nothing is sent. Otherwise a request is sent exactly when the URL contains `//`; without it the handler raises. The sent request goes to `upstream + "/" + path`, with the inbound method, body and query arguments and the forwarded headers. A transport failure gives 502 with `"Proxy request failed: "` and the error. Otherwise the reply has the upstream status, the filtered upstream headers and the upstream body. |
| Text.Find | python/proxy.py:66 | Finds the first occurrence of the separator, and finds one exactly when one exists. |
| Text.Split | python/proxy.py:66 | `str.split` on a non-empty separator. There is at least one piece, and exactly one when the separator is absent. The first piece is the prefix before the first separator. |
| Text.SplitSecond | python/proxy.py:66 | The second piece is the first piece of the text after the first separator. |
| Text.SplitPiecesFree | python/proxy.py:66 | No piece contains the separator. |
| Text.JoinSplit | python/proxy.py:66 | Joining the pieces with the separator gives back the original string. |
| Text.Lower | python/proxy.py:90 | `str.lower`/`strings.ToLower` on ASCII: same length, each character lower-cased. |
| GoProxy.Canonical | golang/main.go:114 | Canonicalisation keeps the length of the name. |
| GoProxy.CanonicalSameLower | golang/main.go:107-114 | Canonicalising a name does not change its lower-cased form, so the exclusion test gives the same answer before and after `Add` canonicalises the name. |
| GoProxy.CanonicalIdempotent | golang/main.go:114 | A canonical name is its own canonical form. |
| GoProxy.CanonicalAuthorization | golang/main.go:85 | `Set("Authorization", …)` stores under the name `Authorization` itself. |
| GoProxy.ResponseWriter.AddHeader | golang/main.go:114 | `Header().Add` appends the value under the canonical name. |
| GoProxy.ResponseWriter.SetHeader | golang/main.go:85 | `Header().Set` replaces all values under the canonical name with the one given. |
| GoProxy.ResponseWriter.WriteHeader | golang/main.go:119 | Only the first call sends a status. It sends the given code, with the header as it stands. |
| GoProxy.ResponseWriter.Write | golang/main.go:122 | If no status was sent yet, it first sends 200. The data is appended to the body exactly when the status sent allows a body (not 1xx, 204 or 304); otherwise it is dropped, as `ErrBodyNotAllowed` says. |
| GoProxy.ResponseWriter.DelHeader | golang/main.go:71 | `Header().Del` removes the canonical name. |
| GoProxy.Error | golang/main.go:71 | `http.Error` as of Go 1.23: deletes `Content-Length`, sets `Content-Type` and `nosniff`, sends the code, and writes the message and a newline when that code allows a body. |
| GoProxy.RelayedKeepsExcludedOut | golang/main.go:105-112 | The copy never adds an excluded name in any letter case, and it leaves existing values under such names alone. |
| GoProxy.RelayedAppendsValues | golang/main.go:113-115 | For every other upstream name, all its values are appended, in order, after the values already there. Names the upstream does not send are untouched. |
| GoProxy.KeptStep | golang/main.go:105-112 | Handling one more upstream name adds it to the copied set exactly when it is not excluded and has values. |
| GoProxy.AppendAllStep | golang/main.go:113-115 | Adding values one at a time equals appending them all at once. |
| GoProxy.MergeAddName | golang/main.go:113-115 | Copying one more name appends its values after everything copied so far. |
| GoProxy.AddValues | golang/main.go:113-115 | The inner loop appends all the values of one name, in order. |
| GoProxy.CopyResponse | golang/main.go:103-125 | The writer's header becomes the old header with every non-excluded upstream name's values appended. The upstream status is sent if none was sent before, with that header. The upstream body is appended when the status sent allows a body, and dropped after 101, 204 or 304. |
| GoProxy.BearerHeader | golang/main.go:76-85 | The outbound header is the inbound header, except that `Authorization` holds exactly one value, `"Bearer " + token`. |
| GoProxy.Outbound | golang/main.go:63-88 | As written. An origin-form target goes to the upstream scheme and host with the inbound path and query, and `Host` is the upstream host. An absolute-form target goes to the target URL itself, with its own host as `Host`. Method and body pass through, and the header is `BearerHeader`. |
| GoProxy.CorrectedOutbound | golang/main.go:63-88 | Corrected: always the upstream scheme and host, with `Host` the upstream host. It equals the request as written for every origin-form target. |
| GoProxy.OutboundLeavesUpstream | golang/main.go:63-88 | As written, a request for `http://attacker.example/` goes to `attacker.example` carrying the upstream's bearer token. The corrected request goes to the upstream. |
| GoProxy.HandleProxyRequest | golang/main.go:60-101 | A failed request construction gives 500 `Internal Server Error` before any token is requested. A failed token gives 500 with the token message, and nothing is sent. A transport failure gives 502 `Bad Gateway`, and nothing is copied. Otherwise the request sent is `Outbound`, as written with `ResolveReference`. The caller gets the upstream status, the relayed headers and the upstream body, or no body when that status forbids one. |
| GoUrl.ResolveReference | golang/main.go:63 | As written: an origin-form target resolves to `Destination`. An absolute-form target resolves to itself: its scheme, host, path and query. |
| GoUrl.ResolveReferenceLeavesUpstream | golang/main.go:63 | The target `http://attacker.example/` is a valid request target, and resolving it leaves the upstream host. |
| GoUrl.SlashSegments | golang/main.go:63 | The path `/` splits into two empty segments, so it has no dot segments. |
| GoUrl.URL.ToString | golang/main.go:64-68 | `URL.String()` for an absolute URL whose path is empty or starts with `/`: the origin `scheme://host`, then the path, then `?` and the query exactly when there is one. |
| GoUrl.UncleanPathsRedirected | golang/main.go:53 | The empty path and `//x`, in origin form and in absolute form, are not request targets: `ServeMux` redirects them instead of calling the handler. |
| GoUrl.Destination | golang/main.go:63 | Corrected: scheme and host always come from the upstream, path and query from the request (section 5.2.2 of RFC 3986). |
| GoUrl.DestinationOnUpstreamOrigin | golang/main.go:63-68 | For a request path starting with `/`, the destination is absolute. Its string form is the upstream origin followed by the request path and query. |
| GoUrl.ExampleDestination | golang/main.go:63 | `GET /foo/bar?x=1` against `https://svc.example` goes to `https://svc.example/foo/bar?x=1`. |
| Agreement.Group | python/proxy.py:89 | A bridge between the two header shapes, not a model of urllib3's header dict: it groups pairs by exact name, while urllib3 groups names case-insensitively. The keys are the pairs' names, each with at least one value. |
| Agreement.KeptAppend | golang/main.go:105-115 | Adding a value grows the kept header the same way, unless the name is excluded. |
| Agreement.GroupFilter | python/proxy.py:87-91 | Grouping Python's filtered list by exact name equals Go's kept header of the same pairs grouped the same way. |
| Agreement.RelayedIntoEmpty | golang/main.go:103-116 | Copying into an empty writer gives exactly the kept upstream header. |
| Agreement.RelayAgreesWithFilter | python/proxy.py:87-91 | When the upstream's names are already in canonical form, Python's relayed list and Go's copy into a fresh writer agree name by name and value by value, and the grouped header has the canonical names Go's client gives `copyResponse`. |
| Agreement.FirstSlashes | python/proxy.py:66 | In `scheme://host…` with no `/` in the scheme, the first `//` comes right after the colon. |
| Agreement.HostHeadersAgree | python/proxy.py:66 | For `scheme://host[/path]`, Python's `Host` string equals the parsed host that Go uses at golang/main.go:88. |
| Agreement.ExampleHost | python/proxy.py:66 | `https://svc.example/x` gives `Host: svc.example`. |
| Agreement.DestinationsAgree | python/proxy.py:57 | With a path-less upstream, the Python destination and Go's destination for the origin-form target `/path` are the same string. |
| Agreement.DestinationsDiverge | python/proxy.py:57 | With upstream `https://svc.example/api`, Python sends to `…/api/x` and Go to `…/x`. |

## Left out

- Configuration and startup are not modelled: environment variables, the missing-URL fatal error, the port default, and Flask and `ListenAndServe` wiring. The upstream URL is a parameter.
- Token minting is not modelled: `fetch_id_token`, `idtoken.NewTokenSource` and Application Default Credentials are network calls. The issuer, or the token source's result, is an input.
- The transport is not modelled. This covers `requests.request`, `httpClient.Do`, the 300-second timeout, and how `requests` encodes and merges `params`. The transport is a function input. The Python request records the query arguments as given.
- Bodies are not modelled: request and response bodies are opaque strings passed through. `stream=True`, `io.Copy`, and the logged mid-copy error of `io.Copy` are not modelled.
- Logging, `print`, context cancellation and concurrent handling of requests are side effects or concurrency, and are not modelled.
- `http.NewRequestWithContext` is not modelled. Whether it fails is a boolean input, because its failure depends on URL parsing and method validation inside net/http.
- GoUrl.ResolveReference: only request targets that `ServeMux` passes to the `/` handler are modelled. These are origin-form or absolute-form, with a path that starts with `/` and has no dot segments and no empty segment. Relative references, dot-segment removal, user info, fragments and opaque URLs are not modelled.
- GoProxy.ResponseWriter.WriteHeader: requires a final status (101 or 200..999). Codes below 100 or above 999 make net/http panic. Other 1xx codes send an interim response; they are not modelled, and the proxy never passes one, because the client does not return them.
- GoProxy.CopyResponse: requires canonical header names in the upstream response, as net/http's client delivers them. Go's map iteration order across names is not stated; only the order of values within a name is.
- GoProxy.CopyResponse: requires a final upstream status (101 or 200..999). The default client never returns any other 1xx code: over HTTP/1.1 it skips them, and fails after five; over HTTP/2 it consumes them. It does return codes on which `WriteHeader` at golang/main.go:119 panics: 000..099 over HTTP/1.1, and over HTTP/2 also any status above 999. That panic is not modelled.
- GoProxy.HandleProxyRequest: requires the transport to return only responses `CopyResponse` accepts, so the `WriteHeader` panic above is not modelled here either. It also requires a request target as `ServeMux` delivers it: paths that would be redirected never reach the handler.
- GoProxy.ResponseWriter.Write: the reply to a `HEAD` request is not distinguished; net/http, like Werkzeug, sends no body for it, while the model records the body written.
- Text.Lower: lower-cases ASCII letters only. Unicode case mapping is not modelled.
- PyProxy.ProxyRequest: the default `Content-Type` Flask adds to the 502 reply and to the relayed reply, when it has none, is not modelled. Nor is the `Content-Length` Werkzeug sets from the body on all three replies (python/proxy.py:54, 83 and 93), so the relayed reply does carry a `Content-Length`, recomputed rather than copied. Nor is Flask's conversion of the uncaught `IndexError` into a 500 page; the model records the exception as `Raised`.
- The two implementations diverge in two ways the code makes plain, and neither is treated as a bug. Go drops the path of the upstream URL, and Python keeps it (`Agreement.DestinationsDiverge`). Python refuses an empty token, while Go forwards `Bearer ` with whatever the token source returns.

## Findings

| source | as written | input that shows it | evidently intended | confidence | as-written member | corrected member |
|---|---|---|---|---|---|---|
| golang/main.go:63 | `upstreamURL.ResolveReference(r.URL)` takes scheme and host from an absolute-form request target | `GET http://attacker.example/ HTTP/1.1` is forwarded, with the upstream's ID token, to `attacker.example` | scheme and host always from the upstream; path and query from the request | not executed | GoProxy.OutboundLeavesUpstream | GoProxy.CorrectedOutbound |

=== FILE: agreement.dfy ===
/**
 * How the two implementations relate: when the upstream's header names are
 * already in canonical form, the Python response filter and the Go header
 * copy keep the same values under the same names; the Python `Host`
 * line picks out the host Go reads from a `scheme://host[/path]` URL, and the
 * destinations of an origin-form request agree when the upstream URL has no
 * path.
 */
module Agreement {
  import opened Wrappers
  import opened Text
  import opened Hop
  import opened GoUrl
  import PyProxy
  import GoProxy

  /**
   * A pair list as an `http.Header`: the values of each exact name in the
   * order they occur (a bridge between the two shapes, with no case folding).
   */
  function Group(pairs: seq<PyProxy.Pair>): (h: GoProxy.Header)
    ensures h.Keys == set p | p in pairs :: p.0
    ensures forall k :: k in h ==> h[k] != []
  {
    if pairs == [] then map[]
    else
      var init, last := pairs[..|pairs| - 1], pairs[|pairs| - 1];
      assert pairs == init + [last];
      GoProxy.Append(Group(init), last.0, last.1)
  }

  lemma GroupSnoc(pairs: seq<PyProxy.Pair>, p: PyProxy.Pair)
    ensures Group(pairs + [p]) == GoProxy.Append(Group(pairs), p.0, p.1)
  {
    assert (pairs + [p])[..|pairs|] == pairs;
  }

  /** Copying into an empty writer yields exactly the kept names and their values. */
  lemma RelayedIntoEmpty(src: GoProxy.Header)
    ensures GoProxy.Relayed(map[], src) == GoProxy.Kept(src)
  {
    var kept := GoProxy.Kept(src);
    assert GoProxy.WithValues(kept) == kept.Keys;
    GoProxy.SameHeader(GoProxy.Relayed(map[], src), kept);
  }

  /** Keeping the headers of a grown map grows the kept map the same way, unless the name is excluded. */
  lemma KeptAppend(h: GoProxy.Header, key: string, value: string)
    ensures GoProxy.Kept(GoProxy.Append(h, key, value)) ==
            if IsExcluded(key) then GoProxy.Kept(h) else GoProxy.Append(GoProxy.Kept(h), key, value)
  {
    var grown := GoProxy.Kept(GoProxy.Append(h, key, value));
    var target := if IsExcluded(key) then GoProxy.Kept(h) else GoProxy.Append(GoProxy.Kept(h), key, value);
    assert grown.Keys == target.Keys;
    forall k ensures GoProxy.ValuesOf(grown, k) == GoProxy.ValuesOf(target, k) {
      if k == key && !IsExcluded(key) {
        assert GoProxy.ValuesOf(GoProxy.Kept(h), key) == GoProxy.ValuesOf(h, key);
      }
    }
    GoProxy.SameHeader(grown, target);
  }

  /**
   * Python's filtered pair list, grouped by exact name, is Go's kept header of
   * the pairs grouped the same way: the same names, with the same values in the
   * same order under each.
   */
  lemma {:induction false} GroupFilter(pairs: seq<PyProxy.Pair>)
    ensures Group(PyProxy.FilterResponseHeaders(pairs)) == GoProxy.Kept(Group(pairs))
  {
    if pairs == [] {
      assert GoProxy.Kept(map[]) == map[];
    } else {
      var init, last := pairs[..|pairs| - 1], pairs[|pairs| - 1];
      assert pairs == init + [last];
      GroupFilter(init);
      PyProxy.FilterAppend(init, [last]);
      assert [last][1..] == [];
      GroupSnoc(init, last);
      KeptAppend(Group(init), last.0, last.1);
      if !IsExcluded(last.0) {
        GroupSnoc(PyProxy.FilterResponseHeaders(init), last);
      } else {
        assert PyProxy.FilterResponseHeaders(pairs) == PyProxy.FilterResponseHeaders(init);
      }
    }
  }

  /**
   * The headers Flask relays and the headers Go's `copyResponse` puts into a
   * fresh writer agree, name by name and value by value, when the upstream
   * sends the same pairs and their names are already in canonical form (Go's
   * client canonicalises names, urllib3 keeps them as sent).  The grouped
   * header then has the canonical names `copyResponse` is given.
   */
  lemma RelayAgreesWithFilter(pairs: seq<PyProxy.Pair>)
    requires forall p :: p in pairs ==> GoProxy.Canonical(p.0) == p.0
    ensures forall k :: k in Group(pairs) ==> GoProxy.Canonical(k) == k
    ensures Group(PyProxy.FilterResponseHeaders(pairs)) == GoProxy.Relayed(map[], Group(pairs))
  {
    GroupFilter(pairs);
    RelayedIntoEmpty(Group(pairs));
  }

  /** In `scheme://host...` with no `/` in the scheme, the first `//` follows the colon. */
  lemma FirstSlashes(base: URL)
    requires base.IsAbsolute() && '/' !in base.scheme
    requires base.path == "" || base.path[0] == '/'
    ensures Find(base.ToString(), "//") == Some(|base.scheme| + 1)
  {
    var s, i := base.ToString(), |base.scheme| + 1;
    assert s[i..i + 2] == "//";
    assert OccursAt(s, "//", i);
    var origin := base.scheme + "://" + base.host;
    forall j | 0 <= j < i
      ensures !OccursAt(s, "//", j)
    {
      assert s[j] == s[..|origin|][j] == origin[j];
      assert s[j] == if j < |base.scheme| then base.scheme[j] else ':';
      if j + 2 <= |s| {
        assert s[j..j + 2][0] == s[j];
      }
    }
  }

  /**
   * For an upstream URL of the form `scheme://host[/path]`, the host Python
   * cuts out of the string is the host Go reads from the parsed URL.
   */
  lemma HostHeadersAgree(base: URL)
    requires base.IsAbsolute() && '/' !in base.scheme && '/' !in base.host
    requires base.path == "" || base.path[0] == '/'
    requires base.rawQuery == ""
    ensures PyProxy.HostHeader(base.ToString()) == Some(base.host)
  {
    var s := base.ToString();
    FirstSlashes(base);
    var start := |base.scheme| + 3;
    assert s[start..] == base.host + base.path;
    SlashFreePrefix(PyProxy.HostHeader(s).value, base.host, base.path);
  }

  /** A `/`-free prefix of `a + b` that ends at a `/` or at the end is `a`, if `b` is empty or starts with `/`. */
  lemma SlashFreePrefix(x: string, a: string, b: string)
    requires '/' !in x && '/' !in a && (b == "" || b[0] == '/')
    requires x <= a + b && (|x| == |a + b| || (a + b)[|x|] == '/')
    ensures x == a
  {
    assert forall i :: 0 <= i < |x| ==> x[i] == (a + b)[i];
    assert forall i :: 0 <= i < |a| ==> (a + b)[i] == a[i];
    assert b != "" ==> (a + b)[|a|] == '/';
    if |x| < |a| {
      assert false;
    } else if |x| > |a| {
      assert false;
    }
    assert x == (a + b)[..|a|];
  }

  /** `https://svc.example/x` yields the `Host` value `svc.example`. */
  lemma ExampleHost()
    ensures PyProxy.HostHeader("https://svc.example/x") == Some("svc.example")
  {
    var base := URL("https", "svc.example", "/x", "");
    assert base.ToString() == "https://svc.example/x";
    HostHeadersAgree(base);
  }

  /**
   * With an upstream URL that has no path, both implementations send a
   * request for `/path` to the same URL.
   */
  lemma DestinationsAgree(base: URL, path: string)
    requires base.IsAbsolute() && base.path == "" && base.rawQuery == ""
    ensures Destination(base, URL("", "", "/" + path, "")).ToString() == base.ToString() + "/" + path
  {
  }

  /**
   * With an upstream URL that has a path they differ: Python keeps the path
   * of the upstream URL, Go replaces it with the request path.
   */
  lemma DestinationsDiverge()
    ensures var base := URL("https", "svc.example", "/api", "");
            && base.ToString() + "/" + "x" == "https://svc.example/api/x"
            && Destination(base, URL("", "", "/x", "")).ToString() == "https://svc.example/x"
  {
  }
}

=== FILE: go_proxy.dfy ===
/**
 * The net/http implementation of the proxy: `handleProxyRequest` and
 * `copyResponse`, over a response writer whose header map and status the
 * handler changes in place.  The token source, `http.NewRequestWithContext`
 * and the HTTP client are inputs of the model.
 */
module GoProxy {
  import opened Wrappers
  import opened Text
  import opened Hop
  import opened GoUrl

  /** `http.Header`: header name to its values, in the order they were added. */
  type Header = map<string, seq<string>>

  /** A byte `textproto` accepts in a header name: a token character of RFC 7230. */
  predicate IsTokenChar(c: char) {
    || ('a' <= c <= 'z') || ('A' <= c <= 'Z') || ('0' <= c <= '9')
    || c in "!#$%&'*+-.^_`|~"
  }

  predicate AllTokenChars(name: string) {
    forall i :: 0 <= i < |name| ==> IsTokenChar(name[i])
  }

  /** Upper-case the first letter and each letter after a hyphen, lower-case the others. */
  function CanonicalRun(s: string, upper: bool): (r: string)
    ensures |r| == |s|
  {
    if s == [] then []
    else [if upper then UpperChar(s[0]) else LowerChar(s[0])] + CanonicalRun(s[1..], s[0] == '-')
  }

  /**
   * `textproto.CanonicalMIMEHeaderKey`, which `Header.Set` and `Header.Add`
   * apply to the name: a name holding a non-token character is left as is.
   */
  function Canonical(name: string): (r: string)
    ensures |r| == |name|
  {
    if AllTokenChars(name) then CanonicalRun(name, true) else name
  }

  lemma {:induction false} CanonicalRunSameLower(s: string, upper: bool)
    ensures Lower(CanonicalRun(s, upper)) == Lower(s)
  {
    if s != [] {
      CanonicalRunSameLower(s[1..], s[0] == '-');
      var r, rest := CanonicalRun(s, upper), CanonicalRun(s[1..], s[0] == '-');
      assert r[1..] == rest;
      forall i | 0 <= i < |s|
        ensures Lower(r)[i] == Lower(s)[i]
      {
        if i > 0 {
          assert Lower(r)[i] == Lower(rest)[i - 1];
          assert Lower(s)[i] == Lower(s[1..])[i - 1];
        }
      }
    }
  }

  /**
   * Canonicalisation only changes letter case, so a name is excluded exactly
   * when its canonical form is.
   */
  lemma CanonicalSameLower(name: string)
    ensures Lower(Canonical(name)) == Lower(name)
    ensures IsExcluded(Canonical(name)) <==> IsExcluded(name)
  {
    CanonicalRunSameLower(name, true);
  }

  lemma {:induction false} CanonicalRunIdempotent(s: string, upper: bool)
    ensures CanonicalRun(CanonicalRun(s, upper), upper) == CanonicalRun(s, upper)
    ensures forall i :: 0 <= i < |s| && IsTokenChar(s[i]) ==> IsTokenChar(CanonicalRun(s, upper)[i])
  {
    if s != [] {
      CanonicalRunIdempotent(s[1..], s[0] == '-');
      var r := CanonicalRun(s, upper);
      assert r[1..] == CanonicalRun(s[1..], s[0] == '-');
      assert (r[0] == '-') == (s[0] == '-');
    }
  }

  /** Canonicalising a canonical name changes nothing. */
  lemma CanonicalIdempotent(name: string)
    ensures Canonical(Canonical(name)) == Canonical(name)
  {
    CanonicalRunIdempotent(name, true);
  }

  /** A run of lower-case letters is left unchanged after its first character. */
  lemma {:induction false} LowerRunFixed(s: string)
    requires forall i :: 0 <= i < |s| ==> 'a' <= s[i] <= 'z'
    ensures CanonicalRun(s, false) == s
  {
    if s != [] {
      LowerRunFixed(s[1..]);
    }
  }

  /** One capital letter followed by lower-case letters, such as `Authorization`. */
  predicate IsCapitalisedWord(s: string) {
    |s| > 0 && 'A' <= s[0] <= 'Z' && forall i :: 1 <= i < |s| ==> 'a' <= s[i] <= 'z'
  }

  /** A capitalised word is its own canonical form. */
  lemma CapitalisedWordCanonical(s: string)
    requires IsCapitalisedWord(s)
    ensures Canonical(s) == s
  {
    LowerRunFixed(s[1..]);
  }

  lemma AuthorizationIsWord()
    ensures IsCapitalisedWord("Authorization")
  {
  }

  /** `Authorization` is already in canonical form. */
  lemma CanonicalAuthorization()
    ensures Canonical("Authorization") == "Authorization"
  {
    AuthorizationIsWord();
    CapitalisedWordCanonical("Authorization");
  }

  /** The values stored under `key`, none if the key is absent. */
  function ValuesOf(h: Header, key: string): seq<string> {
    if key in h then h[key] else []
  }

  /** `Header.Set`: the canonical name holds exactly one value. */
  function SetValue(h: Header, key: string, value: string): Header {
    h[Canonical(key) := [value]]
  }

  /** The value goes after those already stored under `key`. */
  function Append(h: Header, key: string, value: string): Header {
    h[key := ValuesOf(h, key) + [value]]
  }

  /** `Header.Add`: append under the canonical name. */
  function AddValue(h: Header, key: string, value: string): Header {
    Append(h, Canonical(key), value)
  }

  /** An `*http.Request`, reduced to what the proxy reads or writes. */
  datatype Request = Request(verb: string, url: URL, header: Header, host: string, body: string)

  /** An `*http.Response` from the client. */
  datatype UpstreamResponse = UpstreamResponse(statusCode: int, header: Header, body: string)

  /**
   * A status `WriteHeader` sends as the final one: 101, or a three-digit code
   * from 200 on (codes below 100 or above 999 make it panic, other 1xx codes
   * go out as interim responses).
   */
  predicate FinalStatus(code: int) {
    code == 101 || 200 <= code <= 999
  }

  /** `bodyAllowedForStatus`: a 1xx, 204 or 304 reply carries no body. */
  predicate BodyAllowed(code: int) {
    !(100 <= code <= 199) && code != 204 && code != 304
  }

  /**
   * The upstream responses this model relays: header names in canonical form,
   * as the HTTP client produces them, and a status `WriteHeader` sends as the
   * final one.  The default client never returns a 1xx response other than
   * 101: over HTTP/1.1 it skips them (and fails after five), over HTTP/2 it
   * consumes them.  It does return codes `WriteHeader` panics on, which are
   * not modelled: 000..099 over HTTP/1.1, and over HTTP/2 also any status
   * above 999.
   */
  predicate Delivered(resp: UpstreamResponse) {
    && FinalStatus(resp.statusCode)
    && forall k :: k in resp.header ==> Canonical(k) == k
  }

  /** An `http.ResponseWriter`. */
  class ResponseWriter {
    var header: Header       // the map `Header()` returns
    var wroteHeader: bool
    var status: int
    var sentHeader: Header   // the header as it stood when the status line went out
    var body: string

    constructor ()
      ensures header == map[] && !wroteHeader && body == ""
    {
      header, wroteHeader, status, sentHeader, body := map[], false, 200, map[], "";
    }

    method AddHeader(key: string, value: string)
      modifies this`header
      ensures header == AddValue(old(header), key, value)
    {
      header := AddValue(header, key, value);
    }

    method SetHeader(key: string, value: string)
      modifies this`header
      ensures header == SetValue(old(header), key, value)
    {
      header := SetValue(header, key, value);
    }

    method DelHeader(key: string)
      modifies this`header
      ensures header == DelValue(old(header), key)
    {
      header := DelValue(header, key);
    }

    /** Only the first call sends a status line, with the header as it stands. */
    method WriteHeader(code: int)
      requires FinalStatus(code)
      modifies this`wroteHeader, this`status, this`sentHeader
      ensures wroteHeader
      ensures !old(wroteHeader) ==> status == code && sentHeader == header
      ensures old(wroteHeader) ==> status == old(status) && sentHeader == old(sentHeader)
    {
      if !wroteHeader {
        wroteHeader, status, sentHeader := true, code, header;
      }
    }

    /**
     * Writing the body first sends status 200 if no status was sent yet; the
     * data is dropped (`ErrBodyNotAllowed`) when the status sent forbids a body.
     */
    method Write(data: string)
      modifies this`wroteHeader, this`status, this`sentHeader, this`body
      ensures wroteHeader && body == old(body) + (if BodyAllowed(status) then data else "")
      ensures !old(wroteHeader) ==> status == 200 && sentHeader == header
      ensures old(wroteHeader) ==> status == old(status) && sentHeader == old(sentHeader)
    {
      WriteHeader(200);
      if BodyAllowed(status) {
        body := body + data;
      }
    }

    /** The caller got `http.Error`'s reply: the status, its two headers, the message and a newline. */
    predicate HasError(code: int, message: string)
      reads this
    {
      wroteHeader && status == code && sentHeader == ErrorHeader(map[]) && body == message + "\n"
    }
  }

  /** `Header.Del`: the canonical name is gone. */
  function DelValue(h: Header, key: string): Header {
    h - {Canonical(key)}
  }

  /**
   * The header map after `http.Error` (Go 1.23 and later) has deleted
   * `Content-Length` and set its content type and `nosniff`.
   */
  function ErrorHeader(h: Header): Header {
    SetValue(SetValue(DelValue(h, "Content-Length"), "Content-Type", "text/plain; charset=utf-8"), "X-Content-Type-Options", "nosniff")
  }

  /** `http.Error`: a plain-text reply with the given status and message. */
  method Error(w: ResponseWriter, message: string, code: int)
    requires FinalStatus(code)
    modifies w
    ensures w.header == ErrorHeader(old(w.header)) && w.wroteHeader
    ensures !old(w.wroteHeader) ==> w.status == code && w.sentHeader == w.header
    ensures old(w.wroteHeader) ==> w.status == old(w.status) && w.sentHeader == old(w.sentHeader)
    ensures w.body == old(w.body) + (if BodyAllowed(w.status) then message + "\n" else "")
  {
    w.DelHeader("Content-Length");
    w.SetHeader("Content-Type", "text/plain; charset=utf-8");
    w.SetHeader("X-Content-Type-Options", "nosniff");
    w.WriteHeader(code);
    w.Write(message + "\n");
  }

  /** The upstream header without the excluded names and without names that carry no value. */
  function Kept(src: Header): Header {
    map k | k in src && !IsExcluded(k) && src[k] != [] :: src[k]
  }

  /** `dst` with the values of `add` appended after its own, name by name. */
  function Merge(dst: Header, add: Header): Header {
    map k | k in dst.Keys + WithValues(add) :: ValuesOf(dst, k) + ValuesOf(add, k)
  }

  /** The names that hold at least one value. */
  function WithValues(h: Header): set<string> {
    set n | n in h && h[n] != []
  }

  /** The writer's header map once the upstream header `src` has been copied into `dst`. */
  function Relayed(dst: Header, src: Header): Header {
    Merge(dst, Kept(src))
  }

  /** The entries of `src` whose names are in `names`. */
  function Restrict(src: Header, names: set<string>): Header {
    map k | k in src && k in names :: src[k]
  }

  /** copyResponse never introduces an excluded name, in any letter case, and leaves existing ones alone. */
  lemma RelayedKeepsExcludedOut(dst: Header, src: Header)
    ensures forall k :: IsExcluded(k) ==> (k in Relayed(dst, src) <==> k in dst)
    ensures forall k :: IsExcluded(k) && k in dst ==> Relayed(dst, src)[k] == dst[k]
  {
  }

  /**
   * Every other upstream name has all its values appended, in order, after
   * those already in the writer; names the upstream does not send are untouched.
   */
  lemma RelayedAppendsValues(dst: Header, src: Header)
    ensures forall k :: k in src && !IsExcluded(k) ==> ValuesOf(Relayed(dst, src), k) == ValuesOf(dst, k) + src[k]
    ensures forall k :: k !in src ==> (k in Relayed(dst, src) <==> k in dst)
    ensures forall k :: k !in src && k in dst ==> Relayed(dst, src)[k] == dst[k]
  {
  }

  lemma MergeNothing(dst: Header)
    ensures Merge(dst, map[]) == dst
  {
    assert Merge(dst, map[]).Keys == dst.Keys;
    forall k | k in dst
      ensures Merge(dst, map[])[k] == dst[k]
    {
      assert ValuesOf(dst, k) + [] == dst[k];
    }
  }

  /** A name with no values adds nothing. */
  lemma MergeEmptyEntry(dst: Header, add: Header, key: string)
    requires key !in add
    ensures Merge(dst, add[key := []]) == Merge(dst, add)
  {
    assert WithValues(add[key := []]) == WithValues(add);
  }

  /** Two headers with the same names and the same values under every name are equal. */
  lemma SameHeader(a: Header, b: Header)
    requires a.Keys == b.Keys
    requires forall k :: ValuesOf(a, k) == ValuesOf(b, k)
    ensures a == b
  {
    forall k | k in a ensures a[k] == b[k] {
      assert ValuesOf(a, k) == ValuesOf(b, k);
    }
  }
  /** `h` with `vs` appended under `key`; a name without values is not created. */
  function AppendAll(h: Header, key: string, vs: seq<string>): Header {
    if vs == [] then h else h[key := ValuesOf(h, key) + vs]
  }

  /** Appending the values one at a time appends them all. */
  lemma AppendAllStep(h: Header, key: string, vs: seq<string>, v: string)
    ensures Append(AppendAll(h, key, vs), key, v) == AppendAll(h, key, vs + [v])
  {
    if vs == [] {
      assert vs + [v] == [v];
    } else {
      assert ValuesOf(AppendAll(h, key, vs), key) == ValuesOf(h, key) + vs;
      assert ValuesOf(h, key) + vs + [v] == ValuesOf(h, key) + (vs + [v]);
    }
  }

  lemma MergeAddNameKeys(dst: Header, add: Header, key: string, vs: seq<string>)
    requires key !in add && vs != []
    ensures Merge(dst, add[key := vs]).Keys == Merge(dst, add).Keys + {key}
  {
    assert WithValues(add[key := vs]) == WithValues(add) + {key};
  }

  lemma MergeAddNameAt(dst: Header, add: Header, key: string, vs: seq<string>, k: string)
    requires key !in add && vs != []
    ensures ValuesOf(Merge(dst, add[key := vs]), k) == ValuesOf(AppendAll(Merge(dst, add), key, vs), k)
  {
    MergeAddNameKeys(dst, add, key, vs);
  }

  /** Merging one more name appends its values after everything merged so far. */
  lemma MergeAddName(dst: Header, add: Header, key: string, vs: seq<string>)
    requires key !in add
    ensures Merge(dst, add[key := vs]) == AppendAll(Merge(dst, add), key, vs)
  {
    if vs == [] {
      MergeEmptyEntry(dst, add, key);
    } else {
      var grown, target := Merge(dst, add[key := vs]), AppendAll(Merge(dst, add), key, vs);
      MergeAddNameKeys(dst, add, key, vs);
      forall k ensures ValuesOf(grown, k) == ValuesOf(target, k) {
        MergeAddNameAt(dst, add, key, vs, k);
      }
      SameHeader(grown, target);
    }
  }

  /** Finishing one upstream name moves it from the pending names to the copied ones. */
  lemma KeptStep(src: Header, done: set<string>, key: string)
    requires key in src && key !in done
    ensures key !in Kept(Restrict(src, done))
    ensures Kept(Restrict(src, done + {key})) ==
            if IsExcluded(key) || src[key] == [] then Kept(Restrict(src, done))
            else Kept(Restrict(src, done))[key := src[key]]
  {
  }

  /** The inner loop of `copyResponse`: `Add` every value of one name, in order. */
  method AddValues(w: ResponseWriter, key: string, values: seq<string>)
    requires Canonical(key) == key
    modifies w`header
    ensures w.header == AppendAll(old(w.header), key, values)
  {
    var i := 0;
    while i < |values|
      invariant 0 <= i <= |values|
      invariant w.header == AppendAll(old(w.header), key, values[..i])
    {
      assert values[..i + 1] == values[..i] + [values[i]];
      AppendAllStep(old(w.header), key, values[..i], values[i]);
      w.AddHeader(key, values[i]);
      i := i + 1;
    }
    assert values[..|values|] == values;
  }

  /**
   * `copyResponse`: append the values of every upstream header except the
   * four excluded names, then send the upstream status and copy the body,
   * which the writer drops when that status forbids one (a 101 upgrade, 204
   * or 304).
   */
  method CopyResponse(w: ResponseWriter, resp: UpstreamResponse)
    requires Delivered(resp)
    modifies w
    ensures w.header == Relayed(old(w.header), resp.header)
    ensures w.wroteHeader && w.body == old(w.body) + (if BodyAllowed(w.status) then resp.body else "")
    ensures !old(w.wroteHeader) ==> w.status == resp.statusCode && w.sentHeader == w.header
    ensures old(w.wroteHeader) ==> w.status == old(w.status) && w.sentHeader == old(w.sentHeader)
  {
    ghost var dst := w.header;
    var keys := resp.header.Keys;
    ghost var done: set<string> := {};
    MergeNothing(dst);
    assert Restrict(resp.header, {}) == map[];
    while keys != {}
      invariant keys !! done && keys + done == resp.header.Keys
      invariant w.header == Merge(dst, Kept(Restrict(resp.header, done)))
      modifies w`header
      decreases keys
    {
      var key :| key in keys;
      var values := resp.header[key];
      KeptStep(resp.header, done, key);
      var lower := Lower(key);
      if lower == "content-encoding" || lower == "content-length"
         || lower == "transfer-encoding" || lower == "connection" {
        assert IsExcluded(key);
      } else {
        assert !IsExcluded(key);
        MergeAddName(dst, Kept(Restrict(resp.header, done)), key, values);
        AddValues(w, key, values);
      }
      keys := keys - {key};
      done := done + {key};
    }
    assert Restrict(resp.header, done) == resp.header;
    w.WriteHeader(resp.statusCode);
    w.Write(resp.body);
  }

  /** The inbound header with `Authorization` replaced by the bearer token, as `Clone` then `Set` leave it. */
  function BearerHeader(h: Header, token: string): (out: Header)
    ensures out.Keys == h.Keys + {"Authorization"}
    ensures out["Authorization"] == ["Bearer " + token]
    ensures forall k :: k in h && k != "Authorization" ==> out[k] == h[k]
  {
    CanonicalAuthorization();
    SetValue(h, "Authorization", "Bearer " + token)
  }

  /**
   * The request `handleProxyRequest` forwards, as written: the inbound
   * method, body and header with the bearer token, sent to
   * `upstreamURL.ResolveReference(r.URL)` with that URL's host as `Host`.
   * An origin-form target goes to the upstream origin; an absolute-form
   * target goes wherever it names.
   */
  function Outbound(upstream: URL, r: Request, token: string): (q: Request)
    requires IsRequestTarget(r.url)
    ensures IsOriginForm(r.url) ==> q.url == Destination(upstream, r.url) && q.host == upstream.host
    ensures !IsOriginForm(r.url) ==> q.url == r.url && q.host == r.url.host
    ensures q.verb == r.verb && q.body == r.body
    ensures q.header == BearerHeader(r.header, token)
  {
    var destination := ResolveReference(upstream, r.url);
    Request(r.verb, destination, BearerHeader(r.header, token), destination.host, r.body)
  }

  /**
   * The forwarded request as intended: always to the upstream origin, with
   * the inbound path and query.  It is the request as written whenever the
   * target is in origin form.
   */
  function CorrectedOutbound(upstream: URL, r: Request, token: string): (q: Request)
    ensures q.url == Destination(upstream, r.url) && q.host == upstream.host
    ensures q.verb == r.verb && q.body == r.body
    ensures q.header == BearerHeader(r.header, token)
    ensures IsRequestTarget(r.url) && IsOriginForm(r.url) ==> q == Outbound(upstream, r, token)
  {
    Request(r.verb, Destination(upstream, r.url), BearerHeader(r.header, token), upstream.host, r.body)
  }

  /**
   * As written, `GET http://attacker.example/ HTTP/1.1` makes the proxy send
   * the request, with the token minted for the upstream, to `attacker.example`.
   */
  lemma OutboundLeavesUpstream(r: Request, token: string)
    requires r.url == URL("http", "attacker.example", "/", "")
    ensures var upstream := URL("https", "svc.example", "", "");
            && IsRequestTarget(r.url)
            && Outbound(upstream, r, token).host == "attacker.example"
            && Outbound(upstream, r, token).header["Authorization"] == ["Bearer " + token]
            && CorrectedOutbound(upstream, r, token).host == "svc.example"
  {
    SlashSegments();
  }

  /**
   * `handleProxyRequest` on a fresh writer.  `newRequestFails` says whether
   * `http.NewRequestWithContext` returns an error, `token` is what the token
   * source yields and `transport` is the HTTP client.  The destination is
   * computed as written, with `ResolveReference`.
   */
  method HandleProxyRequest(w: ResponseWriter, upstream: URL, r: Request, newRequestFails: bool,
                            token: Result<string, string>, transport: Request -> Result<UpstreamResponse, string>)
    returns (tokenRequested: bool, sent: Option<Request>)
    requires w.header == map[] && !w.wroteHeader && w.body == ""
    requires IsRequestTarget(r.url)
    requires forall q :: transport(q).Success? ==> Delivered(transport(q).value)
    modifies w
    ensures tokenRequested <==> !newRequestFails
    ensures sent.Some? <==> !newRequestFails && token.Success?
    ensures newRequestFails ==> w.HasError(500, "Internal Server Error")
    ensures !newRequestFails && token.Failure? ==> w.HasError(500, TokenFailureMessage)
    ensures sent.Some? ==> token.Success? && sent.value == Outbound(upstream, r, token.value)
    ensures sent.Some? && transport(sent.value).Failure? ==> w.HasError(502, "Bad Gateway")
    ensures sent.Some? && transport(sent.value).Success? ==>
              var resp := transport(sent.value).value;
              && w.wroteHeader && w.status == resp.statusCode
              && w.sentHeader == Relayed(map[], resp.header) && w.header == w.sentHeader
              && w.body == (if BodyAllowed(resp.statusCode) then resp.body else "")
  {
    tokenRequested, sent := false, None;
    var destination := ResolveReference(upstream, r.url);
    if newRequestFails {
      Error(w, "Internal Server Error", 500);
      return;
    }
    var header := r.header;
    tokenRequested := true;
    if token.Failure? {
      Error(w, TokenFailureMessage, 500);
      return;
    }
    header := SetValue(header, "Authorization", "Bearer " + token.value);
    assert header == BearerHeader(r.header, token.value);
    var proxyReq := Request(r.verb, destination, header, destination.host, r.body);
    sent := Some(proxyReq);
    var resp := transport(proxyReq);
    if resp.Failure? {
      Error(w, "Bad Gateway", 502);
      assert transport(proxyReq) == resp;
      return;
    }
    assert Delivered(resp.value);
    CopyResponse(w, resp.value);
    assert transport(proxyReq) == resp;
  }
}

=== FILE: go_url.dfy ===
/**
 * The part of Go's `net/url` the proxy relies on: URLs with a scheme, a host,
 * a path and a raw query, their string form, and `URL.ResolveReference`
 * applied to the request targets an HTTP server hands to a handler.
 */
module GoUrl {
  import opened Wrappers
  import opened Text

  datatype URL = URL(scheme: string, host: string, path: string, rawQuery: string)
  {
    /** A URL with a scheme and an authority, such as the configured upstream. */
    predicate IsAbsolute() {
      scheme != "" && host != ""
    }

    /** `URL.String()` for an absolute URL whose path is empty or starts with `/`. */
    function ToString(): (s: string)
      requires IsAbsolute()
      requires path == "" || path[0] == '/'
      ensures var origin := scheme + "://" + host;
              && |s| >= |origin| + |path|
              && s[..|origin|] == origin
              && s[|origin|..|origin| + |path|] == path
              && (rawQuery == "" <==> |s| == |origin| + |path|)
              && (rawQuery != "" ==> s[|origin| + |path|] == '?' && s[|origin| + |path| + 1..] == rawQuery)
    {
      scheme + "://" + host + path + (if rawQuery == "" then "" else "?" + rawQuery)
    }
  }

  /** No segment of the path is `.` or `..`. */
  predicate DotFree(path: string) {
    var segments := Split(path, "/");
    forall k :: 0 <= k < |segments| ==> segments[k] != "." && segments[k] != ".."
  }

  /** An origin-form request target (`GET /a?b HTTP/1.1`): no scheme, no host. */
  predicate IsOriginForm(ref: URL) {
    ref.scheme == "" && ref.host == ""
  }

  /**
   * The request URLs a Go server hands to the handler registered for `/`:
   * origin-form (`/path?query`) or absolute-form (`http://host/path?query`),
   * with a path that starts with `/` and has no dot segments and no empty
   * segment (`ServeMux` answers other paths, the empty one and `//x`
   * included, with a redirect to the cleaned path).
   */
  predicate IsRequestTarget(ref: URL) {
    && DotFree(ref.path)
    && |ref.path| > 0 && ref.path[0] == '/'
    && !Contains(ref.path, "//")
    && (IsOriginForm(ref) || ref.IsAbsolute())
  }

  /** Paths `ServeMux` redirects never reach the handler: an empty path, or one with an empty segment, in either form. */
  lemma UncleanPathsRedirected()
    ensures !IsRequestTarget(URL("", "", "", ""))
    ensures !IsRequestTarget(URL("", "", "//x", ""))
    ensures !IsRequestTarget(URL("http", "attacker.example", "//x", ""))
  {
    assert OccursAt("//x", "//", 0);
  }

  /**
   * The destination as intended: scheme and authority always from the
   * upstream, path and query from the request target.  For an origin-form
   * target this is the absolute-path case of section 5.2.2 of RFC 3986.
   */
  function Destination(base: URL, ref: URL): (u: URL)
    ensures u.scheme == base.scheme && u.host == base.host
    ensures u.path == ref.path && u.rawQuery == ref.rawQuery
  {
    URL(base.scheme, base.host, ref.path, ref.rawQuery)
  }

  /**
   * `base.ResolveReference(ref)` as Go computes it for a request target.  A
   * reference with a scheme is taken whole (its dot-free path is unchanged
   * by dot-segment removal); otherwise scheme and host come from the base
   * and path and query from the reference.
   */
  function ResolveReference(base: URL, ref: URL): (u: URL)
    requires IsRequestTarget(ref)
    ensures IsOriginForm(ref) ==> u == Destination(base, ref)
    ensures !IsOriginForm(ref) ==> u == ref
  {
    if ref.scheme != "" then ref
    else URL(base.scheme, base.host, ref.path, ref.rawQuery)
  }

  /**
   * An absolute-form request target sends the forwarded request, and the
   * token minted for the upstream, to whatever host the caller names.
   */
  lemma ResolveReferenceLeavesUpstream()
    ensures var base := URL("https", "svc.example", "", "");
            var ref := URL("http", "attacker.example", "/", "");
            && IsRequestTarget(ref)
            && ResolveReference(base, ref).host == "attacker.example"
            && ResolveReference(base, ref).host != base.host
  {
    SlashSegments();
  }

  /** The path `/` has two empty segments, so it is dot-free. */
  lemma SlashSegments()
    ensures Split("/", "/") == ["", ""]
    ensures DotFree("/")
  {
    assert OccursAt("/", "/", 0);
    assert Find("/", "/") == Some(0);
    assert "/"[1..] == "";
    assert !Contains("", "/");
    assert Split("", "/") == [""];
  }

  /** Whatever the path of the request target, the intended destination stays on the upstream origin. */
  lemma DestinationOnUpstreamOrigin(base: URL, ref: URL)
    requires base.IsAbsolute()
    requires |ref.path| > 0 && ref.path[0] == '/'
    ensures Destination(base, ref).IsAbsolute()
    ensures Destination(base, ref).ToString() ==
            base.scheme + "://" + base.host + ref.path + (if ref.rawQuery == "" then "" else "?" + ref.rawQuery)
  {
  }

  /** `GET /foo/bar?x=1` against `https://svc.example` goes to `https://svc.example/foo/bar?x=1`. */
  lemma ExampleDestination()
    ensures Destination(URL("https", "svc.example", "", ""), URL("", "", "/foo/bar", "x=1")).ToString()
            == "https://svc.example/foo/bar?x=1"
  {
  }
}

=== FILE: hop.dfy ===
/**
 * What both implementations share: the response headers that describe the
 * framing of the upstream-to-proxy hop and therefore are never relayed to
 * the caller, and the message sent when no token can be had.
 */
module Hop {
  import opened Text

  const ExcludedHeaders: seq<string> :=
    ["content-encoding", "content-length", "transfer-encoding", "connection"]

  const TokenFailureMessage := "Could not generate authentication token."

  /** The header name, lower-cased, is one of the four excluded names. */
  predicate IsExcluded(name: string) {
    Lower(name) in ExcludedHeaders
  }
}

=== FILE: py_proxy.dfy ===
/**
 * The Flask implementation of the proxy: token acquisition, construction of
 * the forwarded request, and relay of the upstream response.  The identity
 * token issuer and the `requests` transport are parameters of the model.
 */
module PyProxy {
  import opened Wrappers
  import opened Text
  import opened Hop

  /** One header as a (name, value) pair. */
  type Pair = (string, string)

  /** What the route handler sees of the inbound request. */
  datatype InboundRequest = InboundRequest(
    verb: string,        // the HTTP method
    path: string,        // the `<path:path>` route variable, '' on the root route
    args: seq<Pair>,     // query parameters
    headers: seq<Pair>,  // `request.headers` in iteration order
    data: string)        // the body, opaque

  /** The arguments handed to `requests.request`. */
  datatype OutboundRequest = OutboundRequest(
    verb: string,        // the HTTP method
    url: string,
    headers: map<string, string>,
    data: string,
    params: seq<Pair>)

  /** What the upstream answered: status, `resp.raw.headers.items()` and body. */
  datatype UpstreamResponse = UpstreamResponse(statusCode: int, headers: seq<Pair>, content: string)

  /** How a request ends: a response to the caller, or an exception leaving the handler. */
  datatype Reply =
    | Respond(status: int, headers: seq<Pair>, body: string)
    | Raised(exception: string)

  /** The request forwarded upstream, if any, and the reply to the caller. */
  datatype Exchange = Exchange(sent: Option<OutboundRequest>, reply: Reply)

  const ProxyFailurePrefix := "Proxy request failed: "

  /** The header a Flask `Response` with `mimetype='text/plain'` carries (Flask adds the charset). */
  const PlainText: Pair := ("Content-Type", "text/plain; charset=utf-8")

  /**
   * `get_google_id_token`: ask the issuer for a token bound to `audience`;
   * any failure of the issuer is swallowed and becomes `None`.
   */
  function GetGoogleIdToken(issuer: string -> Result<string, string>, audience: string): (token: Option<string>)
    ensures token.None? <==> issuer(audience).Failure?
    ensures token.Some? ==> issuer(audience) == Success(token.value)
  {
    match issuer(audience)
    case Success(t) => Some(t)
    case Failure(_) => None
  }

  /** `pairs[i]` is the last pair with its key. */
  predicate LastWithKey(pairs: seq<Pair>, i: int) {
    0 <= i < |pairs| && forall j :: i < j < |pairs| ==> pairs[j].0 != pairs[i].0
  }

  /**
   * The dict comprehension `{key: value for key, value in pairs}`: the keys
   * are those of the pairs, and a repeated key keeps its last value.
   */
  function DictOf(pairs: seq<Pair>): (d: map<string, string>)
    ensures d.Keys == set p | p in pairs :: p.0
    ensures forall i :: LastWithKey(pairs, i) ==> d[pairs[i].0] == pairs[i].1
  {
    if pairs == [] then map[]
    else
      var init, last := pairs[..|pairs| - 1], pairs[|pairs| - 1];
      assert pairs == init + [last];
      assert forall i :: LastWithKey(pairs, i) && i < |init| ==> LastWithKey(init, i);
      DictOf(init)[last.0 := last.1]
  }

  /**
   * `forward_headers`: the inbound headers as a dict, then `Authorization`
   * overridden with the bearer token and `Host` with the upstream host.
   */
  function ForwardHeaders(inbound: seq<Pair>, token: string, host: string): (h: map<string, string>)
    ensures h.Keys == (set p | p in inbound :: p.0) + {"Authorization", "Host"}
    ensures h["Authorization"] == "Bearer " + token
    ensures h["Host"] == host
    ensures forall i :: LastWithKey(inbound, i) && inbound[i].0 != "Authorization" && inbound[i].0 != "Host"
                        ==> h[inbound[i].0] == inbound[i].1
  {
    DictOf(inbound)["Authorization" := "Bearer " + token]["Host" := host]
  }

  /**
   * `UPSTREAM_SERVER_URL.split('//')[1].split('/')[0]`: the text after the
   * first `//` up to the next `/`; `None` stands for the `IndexError` raised
   * when the URL has no `//`.
   */
  function HostHeader(upstream: string): (host: Option<string>)
    ensures host.Some? <==> Contains(upstream, "//")
    ensures host.Some? ==> '/' !in host.value
    ensures host.Some? ==>
              var start := Find(upstream, "//").value + 2;
              && host.value <= upstream[start..]
              && (start + |host.value| == |upstream| || upstream[start + |host.value|] == '/')
  {
    var parts := Split(upstream, "//");
    if |parts| < 2 then None
    else
      HostShape(upstream);
      Some(Split(parts[1], "/")[0])
  }

  /** A first piece cut at a separator that starts with `/` ends at a `/` or at the end. */
  lemma FirstPieceEndsAtSlash(s: string, sep: string)
    requires |sep| > 0 && sep[0] == '/'
    ensures var piece := Split(s, sep)[0];
            |piece| == |s| || s[|piece|] == '/'
  {
    var piece := Split(s, sep)[0];
    if |piece| < |s| {
      assert OccursAt(s, sep, |piece|);
      assert s[|piece|..|piece| + |sep|][0] == s[|piece|];
    }
  }

  /** `rest.split('//')[0].split('/')[0]` is the longest `/`-free prefix of `rest`. */
  lemma UpToSlash(rest: string)
    ensures var host := Split(Split(rest, "//")[0], "/")[0];
            && '/' !in host && host <= rest
            && (|host| == |rest| || rest[|host|] == '/')
  {
    var authority := Split(rest, "//")[0];
    var host := Split(authority, "/")[0];
    ContainsChar(host, '/');
    FirstPieceEndsAtSlash(rest, "//");
    FirstPieceEndsAtSlash(authority, "/");
    if |host| < |authority| {
      assert rest[|host|] == authority[|host|];
    }
  }

  /** Where the text picked out by the two splits of `HostHeader` lies in the URL. */
  lemma HostShape(upstream: string)
    requires Contains(upstream, "//")
    ensures var host := Split(Split(upstream, "//")[1], "/")[0];
            var start := Find(upstream, "//").value + 2;
            && '/' !in host
            && host <= upstream[start..]
            && (start + |host| == |upstream| || upstream[start + |host|] == '/')
  {
    var start := Find(upstream, "//").value + 2;
    var rest := upstream[start..];
    SplitSecond(upstream, "//");
    UpToSlash(rest);
    var host := Split(Split(rest, "//")[0], "/")[0];
    if |host| < |rest| {
      assert upstream[start + |host|] == rest[|host|];
    }
  }

  /**
   * The list comprehension of response headers: the upstream pairs, in
   * order, without those whose lower-cased name is excluded.
   */
  function FilterResponseHeaders(pairs: seq<Pair>): (kept: seq<Pair>)
    ensures |kept| <= |pairs|
  {
    if pairs == [] then []
    else KeepPair(pairs[0]) + FilterResponseHeaders(pairs[1..])
  }

  /** The comprehension's test on one pair: the pair itself, or nothing if its name is excluded. */
  function KeepPair(p: Pair): seq<Pair> {
    if IsExcluded(p.0) then [] else [p]
  }

  /** Filtering removes exactly the excluded pairs, each kept pair as often as it occurs. */
  lemma {:induction false} FilterCounts(pairs: seq<Pair>)
    ensures forall p :: multiset(FilterResponseHeaders(pairs))[p] ==
                        if IsExcluded(p.0) then 0 else multiset(pairs)[p]
  {
    if pairs != [] {
      FilterCounts(pairs[1..]);
      assert pairs == [pairs[0]] + pairs[1..];
    }
  }

  /** Filtering a concatenation filters each part: the relative order of kept pairs is preserved. */
  lemma {:induction false} FilterAppend(a: seq<Pair>, b: seq<Pair>)
    ensures FilterResponseHeaders(a + b) == FilterResponseHeaders(a) + FilterResponseHeaders(b)
  {
    if a == [] {
      assert a + b == b;
    } else {
      FilterAppend(a[1..], b);
      var ab := a + b;
      assert ab[0] == a[0] && ab[1..] == a[1..] + b;
      var head, rest, tail := KeepPair(a[0]), FilterResponseHeaders(a[1..]), FilterResponseHeaders(b);
      assert FilterResponseHeaders(ab) == head + (rest + tail);
      assert FilterResponseHeaders(a) == head + rest;
      assert head + (rest + tail) == (head + rest) + tail;
    }
  }

  /** Every relayed pair comes from the upstream and has a name outside the exclusion list. */
  lemma FilterSound(pairs: seq<Pair>)
    ensures forall p :: p in FilterResponseHeaders(pairs) ==> p in pairs && !IsExcluded(p.0)
  {
    FilterCounts(pairs);
    forall p | p in FilterResponseHeaders(pairs)
      ensures p in pairs && !IsExcluded(p.0)
    {
      assert multiset(FilterResponseHeaders(pairs))[p] > 0;
    }
  }

  /** Filtering twice is filtering once. */
  lemma {:induction false} FilterIdempotent(pairs: seq<Pair>)
    ensures FilterResponseHeaders(FilterResponseHeaders(pairs)) == FilterResponseHeaders(pairs)
  {
    if pairs != [] {
      FilterIdempotent(pairs[1..]);
      var head := KeepPair(pairs[0]);
      FilterAppend(head, FilterResponseHeaders(pairs[1..]));
    }
  }

  /**
   * `proxy_request`: fetch a token for the upstream base URL, build the
   * forwarded request, send it, and relay the answer.
   */
  function ProxyRequest(upstream: string, issuer: string -> Result<string, string>,
                        inbound: InboundRequest,
                        transport: OutboundRequest -> Result<UpstreamResponse, string>): (x: Exchange)
    // a missing or empty token: a plain-text 500 and nothing is sent
    ensures (issuer(upstream).Failure? || issuer(upstream).value == "") ==>
              x == Exchange(None, Respond(500, [PlainText], TokenFailureMessage))
    // a usable token: something is sent exactly when the Host line does not raise
    ensures issuer(upstream).Success? && issuer(upstream).value != "" ==>
              (x.sent.Some? <==> Contains(upstream, "//")) && (x.sent.None? ==> x.reply.Raised?)
    // the forwarded request
    ensures x.sent.Some? ==>
              var q := x.sent.value;
              && issuer(upstream).Success?
              && q.url == upstream + "/" + inbound.path
              && q.verb == inbound.verb && q.data == inbound.data && q.params == inbound.args
              && q.headers == ForwardHeaders(inbound.headers, issuer(upstream).value, HostHeader(upstream).value)
    // transport failure: 502 with the exception text
    ensures x.sent.Some? && transport(x.sent.value).Failure? ==>
              x.reply == Respond(502, [], ProxyFailurePrefix + transport(x.sent.value).error)
    // transport success: status and body pass through, headers are filtered
    ensures x.sent.Some? && transport(x.sent.value).Success? ==>
              var resp := transport(x.sent.value).value;
              x.reply == Respond(resp.statusCode, FilterResponseHeaders(resp.headers), resp.content)
  {
    var token := GetGoogleIdToken(issuer, upstream);
    if token.None? || token.value == "" then
      Exchange(None, Respond(500, [PlainText], TokenFailureMessage))
    else
      var destination := upstream + "/" + inbound.path;
      match HostHeader(upstream)
      case None => Exchange(None, Raised("IndexError"))
      case Some(host) =>
        var request := OutboundRequest(inbound.verb, destination,
                                       ForwardHeaders(inbound.headers, token.value, host),
                                       inbound.data, inbound.args);
        match transport(request)
        case Failure(e) => Exchange(Some(request), Respond(502, [], ProxyFailurePrefix + e))
        case Success(resp) =>
          Exchange(Some(request), Respond(resp.statusCode, FilterResponseHeaders(resp.headers), resp.content))
  }
}

=== FILE: text.dfy ===
/**
 * String helpers with the semantics of Python's `str.split` and of ASCII
 * case folding, as used by both implementations of the proxy.
 */
module Text {
  import opened Wrappers

  /** `sep` occurs in `s` starting at index `j`. */
  predicate OccursAt(s: string, sep: string, j: int) {
    0 <= j && j + |sep| <= |s| && s[j..j + |sep|] == sep
  }

  predicate Contains(s: string, sep: string) {
    exists j :: 0 <= j <= |s| && OccursAt(s, sep, j)
  }

  /** The first occurrence of `sep` in `s` at or after index `from`. */
  function FindFrom(s: string, sep: string, from: nat): (r: Option<nat>)
    requires |sep| > 0
    ensures r.Some? ==> from <= r.value && OccursAt(s, sep, r.value)
    ensures forall j :: from <= j && (r.None? || j < r.value) ==> !OccursAt(s, sep, j)
    decreases |s| - from
  {
    if from + |sep| > |s| then None
    else if s[from..from + |sep|] == sep then Some(from)
    else FindFrom(s, sep, from + 1)
  }

  /** The first occurrence of `sep` in `s`, like Python's `s.find(sep)`. */
  function Find(s: string, sep: string): (r: Option<nat>)
    requires |sep| > 0
    ensures r.Some? <==> Contains(s, sep)
    ensures r.Some? ==> OccursAt(s, sep, r.value)
    ensures r.Some? ==> forall j :: 0 <= j < r.value ==> !OccursAt(s, sep, j)
  {
    FindFrom(s, sep, 0)
  }

  /**
   * Python's `s.split(sep)`: cut `s` at every non-overlapping occurrence of
   * `sep`, scanning left to right.
   */
  function Split(s: string, sep: string): (pieces: seq<string>)
    requires |sep| > 0
    ensures |pieces| >= 1
    ensures |pieces| == 1 <==> !Contains(s, sep)
    ensures pieces[0] <= s && !Contains(pieces[0], sep)
    ensures |pieces[0]| == |s| || OccursAt(s, sep, |pieces[0]|)
    decreases |s|
  {
    match Find(s, sep)
    case None => [s]
    case Some(i) =>
      PrefixBeforeFirst(s, sep, i);
      [s[..i]] + Split(s[i + |sep|..], sep)
  }

  /** Python's `sep.join(pieces)`. */
  function Join(pieces: seq<string>, sep: string): string {
    if |pieces| == 0 then ""
    else if |pieces| == 1 then pieces[0]
    else pieces[0] + sep + Join(pieces[1..], sep)
  }

  /** The text before the first occurrence of `sep` does not contain `sep`. */
  lemma PrefixBeforeFirst(s: string, sep: string, i: nat)
    requires |sep| > 0 && i <= |s|
    requires forall j :: 0 <= j < i ==> !OccursAt(s, sep, j)
    ensures !Contains(s[..i], sep)
  {
    if Contains(s[..i], sep) {
      var j :| 0 <= j <= i && OccursAt(s[..i], sep, j);
      assert j + |sep| <= i;
      assert s[..i][j..j + |sep|] == s[j..j + |sep|];
      assert OccursAt(s, sep, j);
    }
  }

  /** The second piece of a split is the first piece of the text after the first separator. */
  lemma SplitSecond(s: string, sep: string)
    requires |sep| > 0 && Contains(s, sep)
    ensures |Split(s, sep)| >= 2
    ensures Split(s, sep)[1] == Split(s[Find(s, sep).value + |sep|..], sep)[0]
  {
  }

  /** Every piece of a split is free of the separator. */
  lemma {:induction false} SplitPiecesFree(s: string, sep: string)
    requires |sep| > 0
    ensures forall k :: 0 <= k < |Split(s, sep)| ==> !Contains(Split(s, sep)[k], sep)
    decreases |s|
  {
    match Find(s, sep)
    case None =>
    case Some(i) =>
      var rest := s[i + |sep|..];
      SplitPiecesFree(rest, sep);
      var pieces, tail := Split(s, sep), Split(rest, sep);
      assert pieces == [s[..i]] + tail;
      forall k | 0 <= k < |pieces|
        ensures !Contains(pieces[k], sep)
      {
        if k > 0 {
          assert pieces[k] == tail[k - 1];
        }
      }
  }

  /** Joining the pieces of a split with the same separator gives the text back. */
  lemma {:induction false} JoinSplit(s: string, sep: string)
    requires |sep| > 0
    ensures Join(Split(s, sep), sep) == s
    decreases |s|
  {
    match Find(s, sep)
    case None =>
    case Some(i) =>
      var rest := s[i + |sep|..];
      JoinSplit(rest, sep);
      var pieces := Split(s, sep);
      assert pieces == [s[..i]] + Split(rest, sep);
      assert pieces[0] == s[..i] && pieces[1..] == Split(rest, sep);
      assert Join(pieces, sep) == s[..i] + sep + Join(Split(rest, sep), sep);
      assert s[i..i + |sep|] == sep;
      assert s == s[..i] + s[i..i + |sep|] + rest;
  }

  /** A one-character separator occurs exactly where that character stands. */
  lemma OccursAtChar(s: string, c: char, j: int)
    ensures OccursAt(s, [c], j) <==> 0 <= j < |s| && s[j] == c
  {
    if 0 <= j < |s| {
      assert s[j..j + 1] == [s[j]];
    }
  }

  /** Containing a one-character string is containing that character. */
  lemma ContainsChar(s: string, c: char)
    ensures Contains(s, [c]) <==> c in s
  {
    if c in s {
      var j :| 0 <= j < |s| && s[j] == c;
      OccursAtChar(s, c, j);
    }
    if Contains(s, [c]) {
      var j :| OccursAt(s, [c], j);
      OccursAtChar(s, c, j);
    }
  }

  function LowerChar(c: char): char {
    if 'A' <= c <= 'Z' then (c as int + 32) as char else c
  }

  function UpperChar(c: char): char {
    if 'a' <= c <= 'z' then (c as int - 32) as char else c
  }

  /** ASCII lower-casing, character by character. */
  function Lower(s: string): (r: string)
    ensures |r| == |s|
    ensures forall i {:trigger r[i]} :: 0 <= i < |s| ==> r[i] == LowerChar(s[i])
  {
    seq(|s|, i requires 0 <= i < |s| => LowerChar(s[i]))
  }
}

=== FILE: wrappers.dfy ===
/** Failure-carrying wrappers used across the model. */
module Wrappers {

  /** A value that may be absent (Python's `None`). */
  datatype Option<+T> = None | Some(value: T)

  /** The outcome of a call into a collaborator that can fail with a message. */
  datatype Result<+R, +E> = Success(value: R) | Failure(error: E)
}
